=== FILE: README.md ===
# Flex layout style normalisation (toy-browser `layout.js`)

This project models the style front end of the toy browser's flex layout
pass, `layout.js`, and proves properties of it in Dafny.

- `getStyle(element)` flattens the element's cascaded `computedStyle`
  (property → `{value, specificity}`) into its plain `style` object. It
  creates an empty `style` object when there is none. Each value that ends
  in `px`, or consists only of digits and dots, is replaced by
  `parseInt(value)`.
- `layout(element)` returns at once when the element has no
  `computedStyle`. Otherwise it populates `style` through `getStyle` and
  returns if `display` is not `flex`. For a flex container it then settles
  seven properties with the same test, `!x || x === 'auto'`:
  - `width` and `height` become `null` (unconstrained);
  - `flexDirection`, `flexWrap`, `justifyContent`, `alignItems` and
    `alignContent` become `row`, `nowrap`, `flex-start`, `stretch` and
    `stretch`.

Files:

- `js_value.dfy` (`JsValue`): the values a style entry holds
  (`Str | Num | Null | NaN`) and JavaScript's falsiness on them. A missing
  key stands for `undefined`.
- `js_parse_int.dfy` (`JsParseInt`): `parseInt(string)` without a radix.
  It skips ECMAScript white space, reads a sign and honours a `0x`/`0X`
  prefix. It then reads the longest digit run, or yields `NaN` when there
  is none.
- `js_parse_int_properties.dfy` (`JsParseIntProperties`): a decimal
  printer `Show`/`ShowInt` and the round trip `parseInt(ShowInt(i) + rest)
  == i`. It also covers the sign, leading-zero, white-space, hexadecimal and
  no-digit cases.
- `layout.dfy` (`FlexLayout`): the element record, `Coerce`,
  `ApplyComputed`/`GetStyle`, and `CopyComputedStyle`, the `for…in` loop
  visiting properties in any order. It also holds the guarded assignment
  `Fill`, the ordered step list `SettleSteps` folded by `FillAll`, and
  `Layout`.
- `layout_properties.dfy` (`LayoutProperties`): the lemmas about `layout`
  and value coercion.

The model is functional. `Layout` maps an element to the element as the
pass leaves it, and `style` is an immutable `map<string, Value>`.

`layout` nulls every falsy size, not only a missing or `auto` one. That
covers `0` (from `"0px"` or `"0"`), `NaN` (from `"px"` or `"."`), the empty
string and an earlier `null`. Flex properties follow the same test.

## Model

| member | source | states |
|---|---|---|
| `JsParseInt.ParseInt` | layout.js:37 | `parseInt` always yields a number or `NaN`, never a string or `null`. |
| `JsParseIntProperties.ParseIntShowInt` | layout.js:37 | Round trip: `parseInt` reads back the decimal rendering of every integer, whatever non-digit text follows (`px`, `.5`). The one exception is a `0` followed by `x`, which is a hex prefix. |
| `JsParseIntProperties.ParseIntPlusDropped` | layout.js:37 | A `+` in front of text that does not start with white space or a sign changes nothing (`+12px` reads as `12px`). |
| `JsParseIntProperties.ParseIntPlusThenSignOrSpace` | layout.js:37 | Only one sign is read, and no white space may follow it: `+-5`, `++5` and `+ 5` give `NaN`. |
| `JsParseIntProperties.ParseIntPlusShow` | layout.js:37 | Round trip with a plus sign: `+` followed by the decimal rendering of a natural number and a non-digit rest reads back that number (`+5px` gives 5). |
| `JsParseIntProperties.ParseIntLeadingZeros` | layout.js:37 | Leading zeros before a decimal number do not change its value (`007px` gives 7). |
| `JsParseIntProperties.ParseIntNoDigits` | layout.js:37 | Text starting with a character that is not white space, a sign or a digit (`px`, `.`, `.5`) parses to `NaN`. |
| `JsParseIntProperties.ParseIntSkipsWhiteSpace` | layout.js:37 | Leading ECMAScript white space does not change the result. |
| `JsParseIntProperties.ParseIntHexPrefix` | layout.js:37 | After `0x`/`0X` the digit run is read in radix 16 (`0x10px` gives 16). |
| `JsParseIntProperties.ParseIntHexNoDigits` | layout.js:37 | `0x` followed by no hexadecimal digit gives `NaN`, not the `0` before the `x`. |
| `JsParseIntProperties.ParseIntNegativeHex` | layout.js:37 | The sign is read before the hex prefix: `-0x1F` gives -31. |
| `FlexLayout.Coerce` | layout.js:34-38 | A copied value stays the same string exactly when it neither matches `/px$/` nor `/^[0-9.]+$/`. A matching value becomes a number or `NaN`, never a string or `null`. Which number is stated by `CoercePixels`, `CoerceInteger`, `CoerceDecimal` and `CoerceDegenerate`. |
| `FlexLayout.ApplyComputed` | layout.js:31-39 | After the copy, `style` has the old keys plus every computed key. Each computed key holds its coerced value. Old keys the cascade did not compute keep their values. |
| `FlexLayout.GetStyle` | layout.js:28-42 | `getStyle` returns a style object holding the element's earlier entries plus every computed key, with no earlier entries when the element had no style object. Each computed key holds its coerced value. Earlier keys the cascade did not compute keep their values. |
| `FlexLayout.CopyComputedStyle` | layout.js:31-39 | The `for…in` loop visits the computed properties in any order and always produces the same style object as `ApplyComputed`. |
| `FlexLayout.Fill` | layout.js:8-10 | One guarded assignment: a key that was missing, falsy or `'auto'` takes its fallback, and a set key keeps its value. Every other key is unchanged. |
| `FlexLayout.FillAll` | layout.js:7-22 | Guarded assignments on distinct keys, applied in order: each key that was unset before the whole sequence ends as its fallback, and every other key in the sequence keeps its old value. Keys outside the sequence are unchanged. |
| `FlexLayout.FillAllEstablishes` | layout.js:7-22 | After the assignments, every key they name is present and is either its fallback or a usable (truthy, non-`auto`) value. |
| `FlexLayout.SettleFlexStyle` | layout.js:7-22 | The nulling/defaulting step adds only the two sizes and five flex properties and leaves every other entry alone. Its result is settled: each of the seven is present and is its fallback or a usable value. |
| `FlexLayout.Layout` | layout.js:1-26 | Without `computedStyle` the element comes back unchanged, `style` included. Otherwise `style` exists afterwards, and on a flex container every size and flex property is settled. Tag name, cascade and children are never touched. |
| `LayoutProperties.FlexDecision` | layout.js:4-5 | `layout` continues past the display check exactly when the cascaded `display` text is `flex`. With no cascaded `display`, the element's own `display` entry must already be the string `flex`. |
| `LayoutProperties.LayoutNotFlex` | layout.js:4-5 | A non-flex element ends with the freshly populated style object and no nulling or defaulting. |
| `LayoutProperties.LayoutSizes` | layout.js:7-11 | On a flex container, `width`/`height` are `null` afterwards exactly when they were missing, falsy (including `0` and `NaN`) or `'auto'`. Otherwise they keep their value. |
| `LayoutProperties.LayoutMainAxisDefaults` | layout.js:13-18 | On a flex container, an unset `flexDirection`, `flexWrap` or `justifyContent` becomes `row`, `nowrap` or `flex-start`. A set one keeps its value. |
| `LayoutProperties.LayoutCrossAxisDefaults` | layout.js:19-22 | On a flex container, an unset `alignItems` or `alignContent` becomes `stretch`. A set one keeps its value. |
| `LayoutProperties.LayoutFrame` | layout.js:7-22 | On a flex container, a key other than the two sizes and five flex properties has the same presence and value as after `getStyle`. |
| `LayoutProperties.LayoutKeepsKeys` | layout.js:29-32 | `layout` never drops a style entry: the element's earlier keys and all computed keys are present afterwards. |
| `LayoutProperties.SettleFixesExactlySettled` | layout.js:7-22 | The nulling/defaulting step leaves a style object unchanged exactly when that object is already settled. |
| `LayoutProperties.SettleIdempotent` | layout.js:7-22 | Applying the nulling/defaulting step to its own output changes nothing. |
| `LayoutProperties.ApplyComputedIdempotent` | layout.js:31-39 | Copying the computed properties a second time changes nothing. |
| `LayoutProperties.LayoutIdempotent` | layout.js:1-42 | Laying out an element twice gives the same element as laying it out once. |
| `LayoutProperties.CoercePixels` | layout.js:35-37 | A decimal pixel length (`100px`, `-4px`) is stored as its integer. |
| `LayoutProperties.CoerceInteger` | layout.js:36-37 | Digits-only text is stored as its number (`100` gives 100). In particular `0` gives the falsy 0, which `layout` then nulls as a size. |
| `LayoutProperties.CoerceDecimal` | layout.js:36-37 | Numeric text with a fraction (`12.5`) is stored as its integer part. |
| `LayoutProperties.CoerceDegenerate` | layout.js:35-37 | A bare `px`, and numeric text starting with a dot (`.`, `.5`), is stored as `NaN`. |
| `LayoutProperties.CoerceKeywords` | layout.js:32-38 | Three examples: `flex`, `auto` and `column` are stored verbatim. The general fact, that text matching neither pattern is kept as is, is `Coerce`'s own contract. |

## Left out

- `console.log` of the style and children (layout.js:24-25): output only.
- client.js, server.js and parser.js: socket and HTTP I/O and a
  character-logging stub with no behaviour to state. They are not part of
  this model.
- The flex geometry (line breaking, axis resolution, positioning), the HTML
  tokenizer and tree builder, the CSS cascade and HTTP/chunked decoding do
  not exist in layout.js and are not invented here.
- Specificity is carried in `Declaration` but never read, as in the source.
- Numbers: `parseInt` returns an IEEE double. The model's `Num` is an
  unbounded integer, so rounding above 2^53 and `Infinity` for very long
  digit runs are not modelled. Rounding never turns a non-zero integer into
  zero, so falsiness is unaffected. `-0` (from `"-0px"`) is the same value
  as `0`; both are falsy and `=== 0`.
- Computed values are strings in the model, so `value.toString()` is the
  identity. A non-string cascade value is not modelled.
- `for…in` also enumerates inherited enumerable properties, and assigning
  to keys such as `__proto__` has special behaviour. The model treats
  `computedStyle` and `style` as plain maps.
- `JsParseInt.ParseInt`: its own contract says only that the result is a
  number or `NaN`. What it reads is stated by the lemmas in
  `JsParseIntProperties`.

=== FILE: js_parse_int.dfy ===
/**
  JavaScript's global `parseInt(string)` called without a radix, on a string
  argument: skip leading white space, read an optional sign, detect a `0x`
  prefix, then read the longest run of digits of the chosen radix. No digits
  gives `NaN`.
 */
module JsParseInt {
  import opened JsValue

  /** StrWhiteSpaceChar of ECMAScript: the WhiteSpace code points (tab,
      vertical tab, form feed, the space separators and the byte order mark)
      and the LineTerminator code points. */
  predicate IsStrWhiteSpace(c: char) {
    var n := c as int;
    || n == 0x09 || n == 0x0A || n == 0x0B || n == 0x0C || n == 0x0D
    || n == 0x20 || n == 0xA0 || n == 0x1680 || 0x2000 <= n <= 0x200A
    || n == 0x2028 || n == 0x2029 || n == 0x202F || n == 0x205F
    || n == 0x3000 || n == 0xFEFF
  }

  predicate IsDecimalDigit(c: char) {
    '0' <= c <= '9'
  }

  /** The value of `c` as a digit of radix up to 36; 36 for anything that is
      a digit of no radix. */
  function DigitVal(c: char): nat {
    if '0' <= c <= '9' then c as int - '0' as int
    else if 'a' <= c <= 'z' then c as int - 'a' as int + 10
    else if 'A' <= c <= 'Z' then c as int - 'A' as int + 10
    else 36
  }

  predicate IsRadixDigit(c: char, radix: nat) {
    DigitVal(c) < radix
  }

  /** The input with its leading white space removed. */
  function TrimStart(s: string): (t: string)
    ensures |t| <= |s| && t == s[|s| - |t|..]
    ensures forall i :: 0 <= i < |s| - |t| ==> IsStrWhiteSpace(s[i])
    ensures |t| > 0 ==> !IsStrWhiteSpace(t[0])
  {
    if |s| > 0 && IsStrWhiteSpace(s[0]) then TrimStart(s[1..]) else s
  }

  /** The longest prefix of `s` made of digits of the given radix. */
  function LeadingDigits(s: string, radix: nat): (d: string)
    ensures d <= s
    ensures forall i :: 0 <= i < |d| ==> IsRadixDigit(d[i], radix)
    ensures |d| < |s| ==> !IsRadixDigit(s[|d|], radix)
  {
    if |s| > 0 && IsRadixDigit(s[0], radix) then [s[0]] + LeadingDigits(s[1..], radix) else []
  }

  /** The number a digit string denotes in the given radix, most significant
      digit first. */
  function DigitsValue(d: string, radix: nat): nat {
    if |d| == 0 then 0 else DigitsValue(d[..|d| - 1], radix) * radix + DigitVal(d[|d| - 1])
  }

  /** The number read from trimmed text: an optional sign, then the rest. */
  function ReadSigned(s: string): (r: Value)
    ensures r.Num? || r.NaN?
  {
    if |s| > 0 && s[0] == '-' then Negate(ReadUnsigned(s[1..]))
    else if |s| > 0 && s[0] == '+' then ReadUnsigned(s[1..])
    else ReadUnsigned(s)
  }

  function Negate(v: Value): Value {
    if v.Num? then Num(-v.n) else v
  }

  /** Without a radix argument, a `0x` or `0X` prefix selects radix 16 and
      anything else radix 10. */
  function ReadUnsigned(s: string): (r: Value)
    ensures r.Num? ==> r.n >= 0
  {
    if |s| >= 2 && s[0] == '0' && (s[1] == 'x' || s[1] == 'X') then ReadDigits(s[2..], 16)
    else ReadDigits(s, 10)
  }

  /** The value of the leading digit run, or `NaN` when there is none. */
  function ReadDigits(s: string, radix: nat): (r: Value)
    ensures r.Num? ==> r.n >= 0
  {
    var digits := LeadingDigits(s, radix);
    if |digits| == 0 then NaN else Num(DigitsValue(digits, radix))
  }

  function ParseInt(input: string): (r: Value)
    ensures r.Num? || r.NaN?
  {
    ReadSigned(TrimStart(input))
  }
}

=== FILE: js_parse_int_properties.dfy ===
/**
  What `parseInt` promises on the inputs `getStyle` hands it: it reads back
  the decimal rendering of an integer followed by a unit or a fraction,
  skips leading white space, honours a `0x` prefix, and yields `NaN` when no
  digit comes first.
 */
module JsParseIntProperties {
  import opened JsValue
  import opened JsParseInt

  function DecimalDigit(d: nat): (c: char)
    requires d < 10
    ensures IsDecimalDigit(c) && DigitVal(c) == d
  {
    ('0' as int + d) as char
  }

  /** The decimal rendering of a natural number, without leading zeros. */
  function Show(n: nat): (s: string)
    ensures |s| > 0
    ensures forall i :: 0 <= i < |s| ==> IsDecimalDigit(s[i])
    ensures s[0] == '0' ==> n == 0
  {
    if n < 10 then [DecimalDigit(n)] else Show(n / 10) + [DecimalDigit(n % 10)]
  }

  /** The decimal rendering of an integer, with a `-` when it is negative. */
  function ShowInt(i: int): (s: string)
    ensures |s| > 0 && (i < 0 <==> s[0] == '-')
  {
    if i < 0 then "-" + Show(-i) else Show(i)
  }

  lemma TrimStartKeeps(s: string)
    requires |s| > 0 && !IsStrWhiteSpace(s[0])
    ensures TrimStart(s) == s
  {
  }

  lemma {:induction false} ShowValue(n: nat)
    ensures DigitsValue(Show(n), 10) == n
  {
    if n >= 10 {
      var prefix := Show(n / 10);
      ShowValue(n / 10);
      assert Show(n) == prefix + [DecimalDigit(n % 10)];
      assert (prefix + [DecimalDigit(n % 10)])[..|prefix|] == prefix;
    }
  }

  /** Reading digits stops exactly where the digit run ends. */
  lemma {:induction false} LeadingDigitsOfAppend(d: string, t: string, radix: nat)
    requires forall i :: 0 <= i < |d| ==> IsRadixDigit(d[i], radix)
    requires |t| == 0 || !IsRadixDigit(t[0], radix)
    ensures LeadingDigits(d + t, radix) == d
  {
    if |d| == 0 {
      assert d + t == t;
    } else {
      LeadingDigitsOfAppend(d[1..], t, radix);
      assert (d + t)[1..] == d[1..] + t;
    }
  }

  /** Round trip: `parseInt` reads back the decimal rendering of any integer,
      whatever non-digit text follows it (such as `px` or a fractional part),
      unless a zero is followed by an `x`, which `parseInt` takes for a
      hexadecimal prefix. */
  lemma ParseIntShowInt(i: int, rest: string)
    requires |rest| == 0 || !IsDecimalDigit(rest[0])
    requires i == 0 && |rest| > 0 ==> rest[0] != 'x' && rest[0] != 'X'
    ensures ParseInt(ShowInt(i) + rest) == Num(i)
  {
    if i < 0 {
      var unsigned := Show(-i) + rest;
      assert ShowInt(i) + rest == "-" + unsigned;
      ParseIntNegative(unsigned);
      ReadUnsignedShow(-i, rest);
    } else {
      var unsigned := Show(i) + rest;
      assert ShowInt(i) + rest == unsigned;
      ParseIntUnsigned(unsigned);
      ReadUnsignedShow(i, rest);
    }
  }

  lemma ParseIntUnsigned(text: string)
    requires |text| > 0 && IsDecimalDigit(text[0])
    ensures ParseInt(text) == ReadUnsigned(text)
  {
    TrimStartKeeps(text);
  }

  lemma ParseIntNegative(unsigned: string)
    ensures ParseInt("-" + unsigned) == Negate(ReadUnsigned(unsigned))
  {
    var text := "-" + unsigned;
    TrimStartKeeps(text);
    assert text[1..] == unsigned;
  }

  /** A leading `+` is read and dropped. */
  lemma ParseIntPlus(unsigned: string)
    ensures ParseInt("+" + unsigned) == ReadUnsigned(unsigned)
  {
    var text := "+" + unsigned;
    TrimStartKeeps(text);
    assert text[1..] == unsigned;
  }

  /** A `+` in front of text that does not itself start with white space or
      a sign changes nothing: `+12px` reads as `12px`. */
  lemma ParseIntPlusDropped(u: string)
    requires |u| == 0 || (!IsStrWhiteSpace(u[0]) && u[0] != '+' && u[0] != '-')
    ensures ParseInt("+" + u) == ParseInt(u)
  {
    ParseIntPlus(u);
    if |u| > 0 {
      TrimStartKeeps(u);
    }
  }

  /** Only one sign is read, and no white space may follow it: `+-5`,
      `++5` and `+ 5` hold no number. */
  lemma ParseIntPlusThenSignOrSpace(c: char, s: string)
    requires IsStrWhiteSpace(c) || c == '+' || c == '-'
    ensures ParseInt(['+', c] + s) == NaN
  {
    var u := [c] + s;
    assert ['+', c] + s == "+" + u;
    ParseIntPlus(u);
    assert !IsDecimalDigit(c);
    ReadUnsignedNonDigit(u);
  }

  lemma ReadUnsignedNonDigit(u: string)
    requires |u| > 0 && !IsDecimalDigit(u[0])
    ensures ReadUnsigned(u) == NaN
  {
    assert LeadingDigits(u, 10) == [];
  }

  /** Round trip with an explicit plus sign: `+5px` is 5. */
  lemma ParseIntPlusShow(n: nat, rest: string)
    requires |rest| == 0 || !IsDecimalDigit(rest[0])
    requires n == 0 && |rest| > 0 ==> rest[0] != 'x' && rest[0] != 'X'
    ensures ParseInt("+" + Show(n) + rest) == Num(n)
  {
    var digits := Show(n);
    ReadUnsignedShow(n, rest);
    ParseIntPlus(digits + rest);
    assert "+" + digits + rest == "+" + (digits + rest);
  }

  /** The unsigned part of the round trip. */
  lemma ReadUnsignedShow(n: nat, rest: string)
    requires |rest| == 0 || !IsDecimalDigit(rest[0])
    requires n == 0 && |rest| > 0 ==> rest[0] != 'x' && rest[0] != 'X'
    ensures ReadUnsigned(Show(n) + rest) == Num(n)
  {
    var digits := Show(n);
    var unsigned := digits + rest;
    assert ReadUnsigned(unsigned) == ReadDigits(unsigned, 10) by {
      if |unsigned| >= 2 && unsigned[0] == '0' {
        assert n == 0;
        assert unsigned[1] == rest[0];
      }
    }
    LeadingDigitsOfAppend(digits, rest, 10);
    ShowValue(n);
  }

  /** Text whose first character is neither white space, a sign nor a
      decimal digit (such as `px` or `.5`) holds no number. */
  lemma ParseIntNoDigits(s: string)
    requires |s| > 0 && !IsStrWhiteSpace(s[0]) && !IsDecimalDigit(s[0])
    requires s[0] != '-' && s[0] != '+'
    ensures ParseInt(s) == NaN
  {
    TrimStartKeeps(s);
  }

  /** Leading white space is skipped before the number is read. */
  lemma {:induction false} ParseIntSkipsWhiteSpace(c: char, s: string)
    requires IsStrWhiteSpace(c)
    ensures ParseInt([c] + s) == ParseInt(s)
  {
    assert ([c] + s)[1..] == s;
  }

  /** With a `0x` prefix the digits are read in radix 16. */
  lemma ParseIntHexPrefix(x: char, d: string, rest: string)
    requires x == 'x' || x == 'X'
    requires |d| > 0 && forall i :: 0 <= i < |d| ==> IsRadixDigit(d[i], 16)
    requires |rest| == 0 || !IsRadixDigit(rest[0], 16)
    ensures ParseInt(['0', x] + d + rest) == Num(DigitsValue(d, 16))
  {
    var body := d + rest;
    assert ['0', x] + d + rest == ['0', x] + body;
    ReadHexPrefix(x, body);
    LeadingDigitsOfAppend(d, rest, 16);
  }

  lemma ReadHexPrefix(x: char, body: string)
    requires x == 'x' || x == 'X'
    ensures ParseInt(['0', x] + body) == ReadDigits(body, 16)
  {
    var text := ['0', x] + body;
    TrimStartKeeps(text);
    assert ReadSigned(text) == ReadUnsigned(text);
    assert text[2..] == body;
  }

  /** A `0x` prefix followed by no hexadecimal digit holds no number: the
      `0` before the `x` is not read on its own. */
  lemma ParseIntHexNoDigits(x: char, rest: string)
    requires x == 'x' || x == 'X'
    requires |rest| == 0 || !IsRadixDigit(rest[0], 16)
    ensures ParseInt(['0', x] + rest) == NaN
  {
    ReadHexPrefix(x, rest);
  }

  /** The sign comes before the hexadecimal prefix: `-0x1F` is -31. */
  lemma ParseIntNegativeHex(x: char, d: string, rest: string)
    requires x == 'x' || x == 'X'
    requires |d| > 0 && forall i :: 0 <= i < |d| ==> IsRadixDigit(d[i], 16)
    requires |rest| == 0 || !IsRadixDigit(rest[0], 16)
    ensures ParseInt(['-', '0', x] + d + rest) == Negate(Num(DigitsValue(d, 16)))
  {
    var body := d + rest;
    assert ['-', '0', x] + d + rest == ['-', '0', x] + body;
    LeadingDigitsOfAppend(d, rest, 16);
    ReadNegativeHex(x, body);
  }

  lemma ReadNegativeHex(x: char, body: string)
    requires x == 'x' || x == 'X'
    ensures ParseInt(['-', '0', x] + body) == Negate(ReadDigits(body, 16))
  {
    var unsigned := ['0', x] + body;
    assert ['-', '0', x] + body == "-" + unsigned;
    ParseIntNegative(unsigned);
    ReadUnsignedHex(x, body);
  }

  lemma ReadUnsignedHex(x: char, body: string)
    requires x == 'x' || x == 'X'
    ensures ReadUnsigned(['0', x] + body) == ReadDigits(body, 16)
  {
    assert (['0', x] + body)[2..] == body;
  }

  /** `k` zero digits. */
  function Zeros(k: nat): (z: string)
    ensures |z| == k && forall i :: 0 <= i < k ==> z[i] == '0'
  {
    if k == 0 then [] else ['0'] + Zeros(k - 1)
  }

  lemma {:induction false} DigitsValueLeadingZero(d: string, radix: nat)
    ensures DigitsValue(['0'] + d, radix) == DigitsValue(d, radix)
  {
    var e := ['0'] + d;
    if |d| > 0 {
      assert e[..|e| - 1] == ['0'] + d[..|d| - 1];
      assert e[|e| - 1] == d[|d| - 1];
      DigitsValueLeadingZero(d[..|d| - 1], radix);
    }
  }

  lemma {:induction false} DigitsValueZeros(k: nat, d: string, radix: nat)
    ensures DigitsValue(Zeros(k) + d, radix) == DigitsValue(d, radix)
  {
    if k > 0 {
      assert Zeros(k) + d == ['0'] + (Zeros(k - 1) + d);
      DigitsValueLeadingZero(Zeros(k - 1) + d, radix);
      DigitsValueZeros(k - 1, d, radix);
    } else {
      assert Zeros(k) + d == d;
    }
  }

  /** Leading zeros are read as decimal digits and do not change the value:
      `007px` is 7. */
  lemma ParseIntLeadingZeros(k: nat, n: nat, rest: string)
    requires k > 0
    requires |rest| == 0 || !IsDecimalDigit(rest[0])
    ensures ParseInt(Zeros(k) + Show(n) + rest) == Num(n)
  {
    var digits := Zeros(k) + Show(n);
    var text := digits + rest;
    assert Zeros(k) + Show(n) + rest == text;
    assert forall i :: 0 <= i < |digits| ==> IsDecimalDigit(digits[i]);
    assert text[0] == '0' && text[1] == digits[1];
    ParseIntUnsigned(text);
    assert ReadUnsigned(text) == ReadDigits(text, 10);
    LeadingDigitsOfAppend(digits, rest, 10);
    DigitsValueZeros(k, Show(n), 10);
    ShowValue(n);
  }
}

=== FILE: js_value.dfy ===
/**
  The slice of JavaScript's value model that the layout pass touches: the
  values a style entry can hold and how a condition such as `!style.width`
  reads them.
 */
module JsValue {

  /** A property that may be missing (JavaScript `undefined`). */
  datatype Option<+T> = None | Some(value: T)

  /** What an entry of an element's `style` object can hold: the text copied
      from the cascade, the number `parseInt` produced, the `null` that layout
      writes for an unconstrained size, or the `NaN` that `parseInt` returns
      when it finds no digits. Numbers are the integers `parseInt` yields;
      `-0` is the same value as `0` here. */
  datatype Value = Str(s: string) | Num(n: int) | Null | NaN

  /** JavaScript's ToBoolean is false exactly for these values (and for
      `undefined`, which a missing key stands for). */
  predicate Falsy(v: Value) {
    match v
    case Str(s) => s == ""
    case Num(n) => n == 0
    case Null => true
    case NaN => true
  }
}

=== FILE: layout.dfy ===
/**
  The style-normalisation front end of the flex layout pass (layout.js).

  `GetStyle` flattens an element's cascaded `computedStyle` into its plain
  `style` object, turning pixel lengths and bare numbers into integers.
  `Layout` then stops unless the element is a flex container, and otherwise
  settles the container's sizes and flex properties: an unset size becomes
  `null` (unconstrained) and an unset flex property takes its initial value.
 */
module FlexLayout {
  import opened JsValue
  import opened JsParseInt

  /** One cascaded declaration: the value text and the specificity that won it
      the property. Only the text reaches `style`. */
  datatype Declaration = Declaration(value: string, specificity: seq<nat>)

  type ComputedStyle = map<string, Declaration>
  type StyleMap = map<string, Value>

  /** An element as the layout pass sees it. Either style object may be
      missing; the tag name and children are carried through untouched. */
  datatype Element = Element(
    tagName: string,
    computedStyle: Option<ComputedStyle>,
    style: Option<StyleMap>,
    children: seq<Element>)

  /** The text matches `/px$/`. */
  predicate EndsWithPx(s: string) {
    |s| >= 2 && s[|s| - 2..] == "px"
  }

  /** The text matches `/^[0-9.]+$/`. */
  predicate IsNumericText(s: string) {
    |s| > 0 && forall i :: 0 <= i < |s| ==> IsDecimalDigit(s[i]) || s[i] == '.'
  }

  /** The value `getStyle` stores for a declaration's text: pixel lengths and
      numeric text go through `parseInt`, anything else is kept verbatim. */
  function Coerce(text: string): (v: Value)
    ensures v != Null
    ensures v.Str? <==> !EndsWithPx(text) && !IsNumericText(text)
    ensures v.Str? ==> v.s == text
  {
    if EndsWithPx(text) || IsNumericText(text) then ParseInt(text) else Str(text)
  }

  function ComputedOf(e: Element): ComputedStyle {
    if e.computedStyle.Some? then e.computedStyle.value else map[]
  }

  /** The element's style object, or the empty object `getStyle` creates. */
  function StyleOf(e: Element): StyleMap {
    if e.style.Some? then e.style.value else map[]
  }

  /** `style` after every computed property has been copied into it. */
  function ApplyComputed(style: StyleMap, computed: ComputedStyle): (r: StyleMap)
    ensures r.Keys == style.Keys + computed.Keys
    ensures forall k :: k in computed ==> r[k] == Coerce(computed[k].value)
    ensures forall k :: k in style && k !in computed ==> r[k] == style[k]
  {
    style + map k | k in computed :: Coerce(computed[k].value)
  }

  /** The style object `getStyle` leaves on the element and returns: the
      element's own entries (none when it had no style object), overwritten
      by the coerced value of every cascaded property. */
  function GetStyle(e: Element): (r: StyleMap)
    ensures r.Keys == StyleOf(e).Keys + ComputedOf(e).Keys
    ensures forall k :: k in ComputedOf(e) ==> r[k] == Coerce(ComputedOf(e)[k].value)
    ensures forall k :: k in StyleOf(e) && k !in ComputedOf(e) ==> r[k] == StyleOf(e)[k]
    ensures e.style.None? ==> r.Keys == ComputedOf(e).Keys
  {
    ApplyComputed(StyleOf(e), ComputedOf(e))
  }

  /** The `for (let prop in computedStyle)` loop of `getStyle`, visiting the
      properties in an arbitrary order: whatever the order, the result is the
      same style object. */
  method CopyComputedStyle(style: StyleMap, computed: ComputedStyle) returns (r: StyleMap)
    ensures r.Keys == style.Keys + computed.Keys
    ensures forall k :: k in computed ==> r[k] == Coerce(computed[k].value)
    ensures forall k :: k in style && k !in computed ==> r[k] == style[k]
    ensures r == ApplyComputed(style, computed)
  {
    r := style;
    var pending := computed.Keys;
    while pending != {}
      invariant pending <= computed.Keys
      invariant forall k :: k in r <==> k in style || (k in computed && k !in pending)
      invariant forall k :: k in computed && k !in pending ==> r[k] == Coerce(computed[k].value)
      invariant forall k :: k in style && k !in computed ==> r[k] == style[k]
      decreases pending
    {
      var k :| k in pending;
      r := r[k := Coerce(computed[k].value)];
      pending := pending - {k};
    }
    SameEntries(r, ApplyComputed(style, computed));
  }

  /** Two style objects with the same keys and the same value under each key
      are the same object. */
  lemma SameEntries(a: StyleMap, b: StyleMap)
    requires a.Keys == b.Keys
    requires forall k :: k in a ==> a[k] == b[k]
    ensures a == b
  {
  }

  /** The test `!style[key] || style[key] === 'auto'` that both the size step
      and the flex-property step apply. */
  predicate Unset(style: StyleMap, key: string) {
    key !in style || Falsy(style[key]) || style[key] == Str("auto")
  }

  /** One guarded assignment: an unset `key` takes `fallback`. */
  function Fill(style: StyleMap, key: string, fallback: Value): (r: StyleMap)
    ensures r.Keys == style.Keys + {key}
    ensures r[key] == (if Unset(style, key) then fallback else style[key])
    ensures forall k :: k in style && k != key ==> r[k] == style[k]
  {
    if Unset(style, key) then style[key := fallback] else style
  }

  type Step = (string, Value)

  function StepKeys(steps: seq<Step>): set<string> {
    set i | 0 <= i < |steps| :: steps[i].0
  }

  predicate DistinctKeys(steps: seq<Step>) {
    forall i, j :: 0 <= i < j < |steps| ==> steps[i].0 != steps[j].0
  }

  /** A sequence of guarded assignments on distinct keys, applied in order:
      each key that was unset before the whole sequence ends as its fallback,
      and every other key in the sequence keeps its old value. */
  function FillAll(style: StyleMap, steps: seq<Step>): (r: StyleMap)
    requires DistinctKeys(steps)
    ensures r.Keys == style.Keys + StepKeys(steps)
    ensures forall i :: 0 <= i < |steps| ==>
      r[steps[i].0] == (if Unset(style, steps[i].0) then steps[i].1 else style[steps[i].0])
    ensures forall k :: k in style && k !in StepKeys(steps) ==> r[k] == style[k]
    decreases |steps|
  {
    if |steps| == 0 then style
    else
      assert StepKeys(steps) == {steps[0].0} + StepKeys(steps[1..]) by {
        assert forall i :: 1 <= i < |steps| ==> steps[i] == steps[1..][i - 1];
      }
      assert steps[0].0 !in StepKeys(steps[1..]);
      FillAll(Fill(style, steps[0].0, steps[0].1), steps[1..])
  }

  /** A style object the guarded assignments have nothing left to do on:
      every key is present and either already its fallback or a usable
      value. */
  predicate SettledBy(style: StyleMap, steps: seq<Step>) {
    forall i :: 0 <= i < |steps| ==>
      steps[i].0 in style && (style[steps[i].0] == steps[i].1 || !Unset(style, steps[i].0))
  }

  lemma FillAllEstablishes(style: StyleMap, steps: seq<Step>)
    requires DistinctKeys(steps)
    ensures SettledBy(FillAll(style, steps), steps)
  {
    var r := FillAll(style, steps);
    forall i | 0 <= i < |steps|
      ensures steps[i].0 in r
    {
      assert steps[i].0 in StepKeys(steps);
    }
  }

  /** The guarded assignments of layout.js, in source order: the two sizes
      fall back to `null` (unconstrained), the five flex properties to their
      initial values. */
  const SettleSteps: seq<Step> := [
    ("width", Null),
    ("height", Null),
    ("flexDirection", Str("row")),
    ("flexWrap", Str("nowrap")),
    ("justifyContent", Str("flex-start")),
    ("alignItems", Str("stretch")),
    ("alignContent", Str("stretch"))]

  /** The properties the settling step may write. */
  const SettledKeys: set<string> := StepKeys(SettleSteps)

  lemma SettleStepsDistinct()
    ensures DistinctKeys(SettleSteps)
  {
  }

  /** The width/height nulling followed by the five flex defaults: it adds
      only the settled keys, leaves every other entry alone, and its result
      is settled. */
  function SettleFlexStyle(style: StyleMap): (r: StyleMap)
    ensures r.Keys == style.Keys + SettledKeys
    ensures forall k :: k in style && k !in SettledKeys ==> r[k] == style[k]
    ensures Settled(r)
  {
    SettleStepsDistinct();
    FillAllEstablishes(style, SettleSteps);
    FillAll(style, SettleSteps)
  }

  predicate Settled(style: StyleMap) {
    SettledBy(style, SettleSteps)
  }

  predicate IsFlex(style: StyleMap) {
    "display" in style && style["display"] == Str("flex")
  }

  /** `layout(element)`: the element with its style object as the pass
      leaves it. */
  function Layout(e: Element): (r: Element)
    ensures r.tagName == e.tagName && r.computedStyle == e.computedStyle && r.children == e.children
    ensures e.computedStyle.None? ==> r == e
    ensures e.computedStyle.Some? ==> r.style.Some?
    ensures e.computedStyle.Some? && IsFlex(GetStyle(e)) ==> Settled(r.style.value)
  {
    if e.computedStyle.None? then e
    else
      var style := GetStyle(e);
      if !IsFlex(style) then e.(style := Some(style))
      else e.(style := Some(SettleFlexStyle(style)))
  }
}

=== FILE: layout_properties.dfy ===
/**
  What the layout pass promises: how `getStyle` coerces values, what
  `layout` does to a flex container's sizes and flex properties and to
  everything else, and that running it again changes nothing.
 */
module LayoutProperties {
  import opened JsValue
  import opened JsParseInt
  import opened JsParseIntProperties
  import opened FlexLayout

  /** The guarded assignments change nothing on exactly the settled style
      objects. */
  lemma FillAllFixesExactlySettled(style: StyleMap, steps: seq<Step>)
    requires DistinctKeys(steps)
    ensures FillAll(style, steps) == style <==> SettledBy(style, steps)
  {
    var r := FillAll(style, steps);
    if SettledBy(style, steps) {
      forall k | k in r ensures k in style && r[k] == style[k] {
        if k in StepKeys(steps) {
          var i :| 0 <= i < |steps| && steps[i].0 == k;
        }
      }
      SameEntries(r, style);
    }
    if r == style {
      FillAllEstablishes(style, steps);
    }
  }

  /** Re-copying computed properties over a settled style object and settling
      again gives back the settled object: every re-copied entry is the one it
      was settled from. */
  lemma FillAllAfterRecopy(style: StyleMap, computed: ComputedStyle, steps: seq<Step>)
    requires DistinctKeys(steps)
    requires style == ApplyComputed(style, computed)
    ensures FillAll(ApplyComputed(FillAll(style, steps), computed), steps) == FillAll(style, steps)
  {
    var settled := FillAll(style, steps);
    var r := FillAll(ApplyComputed(settled, computed), steps);
    forall k | k in r ensures k in settled && r[k] == settled[k] {
      RecopyKeeps(style, computed, steps, k);
    }
    SameEntries(r, settled);
  }

  /** One key of `FillAllAfterRecopy`. */
  lemma RecopyKeeps(style: StyleMap, computed: ComputedStyle, steps: seq<Step>, k: string)
    requires DistinctKeys(steps)
    requires style == ApplyComputed(style, computed)
    requires k in FillAll(ApplyComputed(FillAll(style, steps), computed), steps)
    ensures k in FillAll(style, steps)
    ensures FillAll(ApplyComputed(FillAll(style, steps), computed), steps)[k] == FillAll(style, steps)[k]
  {
    var settled := FillAll(style, steps);
    var again := ApplyComputed(settled, computed);
    if k in StepKeys(steps) {
      var i :| 0 <= i < |steps| && steps[i].0 == k;
      if k in computed {
        assert again[k] == style[k];
      } else {
        assert again[k] == settled[k];
      }
    } else {
      assert k in again;
    }
  }

  /** The settling step changes nothing on a settled style object, and a style
      object it leaves unchanged is settled. */
  lemma SettleFixesExactlySettled(style: StyleMap)
    ensures SettleFlexStyle(style) == style <==> Settled(style)
  {
    SettleStepsDistinct();
    FillAllFixesExactlySettled(style, SettleSteps);
  }

  /** Nulling sizes and filling in flex defaults a second time changes
      nothing. */
  lemma SettleIdempotent(style: StyleMap)
    ensures SettleFlexStyle(SettleFlexStyle(style)) == SettleFlexStyle(style)
  {
    SettleStepsDistinct();
    FillAllEstablishes(style, SettleSteps);
    FillAllFixesExactlySettled(SettleFlexStyle(style), SettleSteps);
  }

  /** Copying the computed properties again changes nothing. */
  lemma ApplyComputedIdempotent(style: StyleMap, computed: ComputedStyle)
    ensures ApplyComputed(ApplyComputed(style, computed), computed) == ApplyComputed(style, computed)
  {
    var once := ApplyComputed(style, computed);
    SameEntries(ApplyComputed(once, computed), once);
  }

  /** Whether layout goes past the display check is decided by the cascaded
      `display` text when there is one, and by the element's own style object
      otherwise. */
  lemma FlexDecision(e: Element)
    ensures IsFlex(GetStyle(e)) <==>
      if "display" in ComputedOf(e) then ComputedOf(e)["display"].value == "flex"
      else "display" in StyleOf(e) && StyleOf(e)["display"] == Str("flex")
  {
    var computed := ComputedOf(e);
    if "display" in computed {
      var text := computed["display"].value;
      assert GetStyle(e)["display"] == Coerce(text);
      if text == "flex" {
        CoerceKeywords();
      }
    }
  }

  /** A non-flex element keeps the freshly populated style object and nothing
      else happens to it. */
  lemma LayoutNotFlex(e: Element)
    requires e.computedStyle.Some? && !IsFlex(GetStyle(e))
    ensures Layout(e) == e.(style := Some(GetStyle(e)))
  {
  }

  /** `key` ends as `fallback` when it was unset before and keeps its value
      otherwise. */
  predicate SettledFrom(before: StyleMap, after: StyleMap, key: string, fallback: Value) {
    && key in after
    && (Unset(before, key) ==> after[key] == fallback)
    && (!Unset(before, key) ==> key in before && after[key] == before[key])
  }

  lemma FillAllAt(style: StyleMap, steps: seq<Step>, i: nat)
    requires DistinctKeys(steps) && i < |steps|
    ensures SettledFrom(style, FillAll(style, steps), steps[i].0, steps[i].1)
  {
    assert steps[i].0 in StepKeys(steps);
  }

  /** The settled value of the `i`-th property of the settling step. */
  lemma SettleAt(style: StyleMap, i: nat, key: string, fallback: Value)
    requires i < |SettleSteps| && SettleSteps[i] == (key, fallback)
    ensures SettledFrom(style, SettleFlexStyle(style), key, fallback)
  {
    SettleStepsDistinct();
    FillAllAt(style, SettleSteps, i);
  }

  lemma SettleSizes(style: StyleMap)
    ensures SettledFrom(style, SettleFlexStyle(style), "width", Null)
    ensures SettledFrom(style, SettleFlexStyle(style), "height", Null)
  {
    SettleAt(style, 0, "width", Null);
    SettleAt(style, 1, "height", Null);
  }

  lemma SettleFlow(style: StyleMap)
    ensures SettledFrom(style, SettleFlexStyle(style), "flexDirection", Str("row"))
    ensures SettledFrom(style, SettleFlexStyle(style), "flexWrap", Str("nowrap"))
  {
    SettleAt(style, 2, "flexDirection", Str("row"));
    SettleAt(style, 3, "flexWrap", Str("nowrap"));
  }

  lemma SettleJustify(style: StyleMap)
    ensures SettledFrom(style, SettleFlexStyle(style), "justifyContent", Str("flex-start"))
  {
    SettleAt(style, 4, "justifyContent", Str("flex-start"));
  }

  lemma SettleCrossAxis(style: StyleMap)
    ensures SettledFrom(style, SettleFlexStyle(style), "alignItems", Str("stretch"))
    ensures SettledFrom(style, SettleFlexStyle(style), "alignContent", Str("stretch"))
  {
    SettleAt(style, 5, "alignItems", Str("stretch"));
    SettleAt(style, 6, "alignContent", Str("stretch"));
  }

  /** On a flex element, width and height end as `null` exactly when they were
      missing, falsy or `'auto'` after `getStyle`, and are kept otherwise. */
  lemma LayoutSizes(e: Element)
    requires e.computedStyle.Some? && IsFlex(GetStyle(e))
    ensures SettledFrom(GetStyle(e), Layout(e).style.value, "width", Null)
    ensures SettledFrom(GetStyle(e), Layout(e).style.value, "height", Null)
    ensures Layout(e).style.value["width"] == Null <==> Unset(GetStyle(e), "width")
    ensures Layout(e).style.value["height"] == Null <==> Unset(GetStyle(e), "height")
  {
    SettleSizes(GetStyle(e));
  }

  /** On a flex element, direction, wrapping and justification default to
      `row`, `nowrap` and `flex-start` when missing, falsy or `'auto'`, and
      keep their values otherwise. */
  lemma LayoutMainAxisDefaults(e: Element)
    requires e.computedStyle.Some? && IsFlex(GetStyle(e))
    ensures SettledFrom(GetStyle(e), Layout(e).style.value, "flexDirection", Str("row"))
    ensures SettledFrom(GetStyle(e), Layout(e).style.value, "flexWrap", Str("nowrap"))
    ensures SettledFrom(GetStyle(e), Layout(e).style.value, "justifyContent", Str("flex-start"))
  {
    SettleFlow(GetStyle(e));
    SettleJustify(GetStyle(e));
  }

  /** On a flex element, item and line alignment default to `stretch` when
      missing, falsy or `'auto'`, and keep their values otherwise. */
  lemma LayoutCrossAxisDefaults(e: Element)
    requires e.computedStyle.Some? && IsFlex(GetStyle(e))
    ensures SettledFrom(GetStyle(e), Layout(e).style.value, "alignItems", Str("stretch"))
    ensures SettledFrom(GetStyle(e), Layout(e).style.value, "alignContent", Str("stretch"))
  {
    SettleCrossAxis(GetStyle(e));
  }

  /** On a flex element, the settling step touches only the sizes and the
      five flex properties. */
  lemma LayoutFrame(e: Element, key: string)
    requires e.computedStyle.Some? && IsFlex(GetStyle(e))
    requires key !in SettledKeys
    ensures key in Layout(e).style.value <==> key in GetStyle(e)
    ensures key in GetStyle(e) ==> Layout(e).style.value[key] == GetStyle(e)[key]
  {
  }

  /** Layout never drops a style entry: what the element had and everything
      the cascade computed are present afterwards. */
  lemma LayoutKeepsKeys(e: Element)
    requires e.computedStyle.Some?
    ensures StyleOf(e).Keys + ComputedOf(e).Keys <= Layout(e).style.value.Keys
  {
  }

  /** Laying out an element twice gives the same element as laying it out
      once. */
  lemma LayoutIdempotent(e: Element)
    ensures Layout(Layout(e)) == Layout(e)
  {
    if e.computedStyle.Some? {
      if IsFlex(GetStyle(e)) {
        RelayoutFlex(e);
      } else {
        RelayoutNotFlex(e);
      }
    }
  }

  lemma RelayoutNotFlex(e: Element)
    requires e.computedStyle.Some? && !IsFlex(GetStyle(e))
    ensures Layout(Layout(e)) == Layout(e)
  {
    var style := GetStyle(e);
    assert GetStyle(Layout(e)) == ApplyComputed(style, ComputedOf(e));
    ApplyComputedIdempotent(StyleOf(e), ComputedOf(e));
  }

  lemma RelayoutFlex(e: Element)
    requires e.computedStyle.Some? && IsFlex(GetStyle(e))
    ensures Layout(Layout(e)) == Layout(e)
  {
    var style := GetStyle(e);
    assert ApplyComputed(style, ComputedOf(e)) == style by {
      ApplyComputedIdempotent(StyleOf(e), ComputedOf(e));
    }
    RecopyThenSettle(style, ComputedOf(e));
  }

  /** Re-copying the computed properties over a settled flex style and
      settling again gives back the settled style. */
  lemma RecopyThenSettle(style: StyleMap, computed: ComputedStyle)
    requires style == ApplyComputed(style, computed) && IsFlex(style)
    ensures IsFlex(ApplyComputed(SettleFlexStyle(style), computed))
    ensures SettleFlexStyle(ApplyComputed(SettleFlexStyle(style), computed)) == SettleFlexStyle(style)
  {
    DisplayIsNotSettled();
    SettleStepsDistinct();
    FillAllAfterRecopy(style, computed, SettleSteps);
  }

  lemma DisplayIsNotSettled()
    ensures "display" !in SettledKeys
  {
  }

  /** A pixel length written in decimal, such as `100px` or `-4px`, becomes
      its integer. */
  lemma CoercePixels(i: int)
    ensures Coerce(ShowInt(i) + "px") == Num(i)
  {
    var text := ShowInt(i) + "px";
    assert text[|text| - 2..] == "px";
    ParseIntShowInt(i, "px");
  }

  /** Digits-only text such as `100` or `0` becomes its number; `"0"` is
      the falsy value that turns a size into `null`. */
  lemma CoerceInteger(n: nat)
    ensures Coerce(Show(n)) == Num(n)
  {
    assert ShowInt(n) + "" == Show(n);
    ParseIntShowInt(n, "");
  }

  /** Numeric text such as `12.5` becomes its integer part. */
  lemma CoerceDecimal(n: nat, fraction: string)
    requires forall j :: 0 <= j < |fraction| ==> IsDecimalDigit(fraction[j])
    ensures Coerce(Show(n) + "." + fraction) == Num(n)
  {
    var whole := Show(n);
    var rest := "." + fraction;
    var text := whole + rest;
    assert Show(n) + "." + fraction == text;
    forall j | 0 <= j < |text| ensures IsDecimalDigit(text[j]) || text[j] == '.' {
      if j >= |whole| + 1 {
        assert text[j] == fraction[j - |whole| - 1];
      }
    }
    assert ShowInt(n) == whole;
    ParseIntShowInt(n, rest);
  }

  /** Text with no digits before the dot, or a bare `px`, becomes `NaN`. */
  lemma CoerceDegenerate(text: string)
    requires text == "px" || (IsNumericText(text) && text[0] == '.')
    ensures Coerce(text) == NaN
  {
    ParseIntNoDigits(text);
  }

  /** Keywords are stored verbatim. */
  lemma CoerceKeywords()
    ensures Coerce("flex") == Str("flex")
    ensures Coerce("auto") == Str("auto")
    ensures Coerce("column") == Str("column")
  {
    assert !IsNumericText("flex") by { assert "flex"[0] == 'f'; }
    assert !IsNumericText("auto") by { assert "auto"[0] == 'a'; }
    assert !IsNumericText("column") by { assert "column"[0] == 'c'; }
  }
}
